=== FILE: README.md ===
# Fitness and nutrition tracker: a Dafny model of its sequential core

The tracker is a React dashboard talking to a small Flask backend. Most of it
is HTTP and UI glue. This project models the three pieces of it that are
plain sequential logic, and proves what they promise.

- **The dashboard's entry forms** (`frontend/src/pages/Dashboard.js`). A workout
  draft and a meal draft are ordered lists of rows. Rows can be added, removed
  by index, or have one field edited. Saving checks the draft, filters its rows
  into the JSON payload, and afterwards either resets the form or leaves it
  alone. The workouts table shows the exercises of at most one workout, chosen
  by a one-slot toggle. Modules `Seqs`, `JsText`, `Drafts`, `Submission` and
  `Dashboard` model this. The page is a state machine: `Dashboard.Next` reacts
  to one `Event`, and `Dashboard.Enabled` says which controls are on screen and
  not disabled. `Enabled` over-approximates in one place: it lets a workout be
  toggled in every state, while the workouts table is drawn only once a summary
  listing workouts has arrived (Dashboard.js:399 and 472). Apart from that, a control is
  enabled exactly when the page draws it without `disabled`. A save is one
  step of the machine, although in the page it spans two fetches; the lemmas
  about runs therefore cover every sequence of events in which no event
  arrives while a save is waiting on the network (see "## Left out").
- **The login decision and the user listing** (`backend/app.py`). A login gets
  400, 401 or 200, decided by field truthiness, a lookup by email and plain
  string equality of passwords. The listing is an order-preserving projection
  of the user table. Modules `PyValues`, `Users` and `Api` model this. The
  database query becomes a search over a sequence of rows.
- **The password re-hash script** (`backend/hash_passwords.py`). A prefix test
  decides which stored passwords still need hashing. The loop rewrites exactly
  those users, counts them, and commits only when the count is non-zero. Module
  `Migration` models this. `generate_password_hash` is a function parameter
  `hash(pw, i)`: the output of the one call made for the user at loop
  position `i`. The library salts every call afresh, so equal passwords may
  hash differently; the model assumes no more about the output than that.

Things the model takes as inputs, because they are I/O or foreign code:

- the current UTC date as `YYYY-MM-DD` (`today`, from `new Date().toISOString().slice(0, 10)`), which can differ from the local calendar date;
- what the server does with a POST and the follow-up summary fetch (`Submission.Reply`);
- the user table (`seq<Users.User>`);
- the parsed JSON request body (`PyValues.Value`);
- the hash function.

`parseInt` and `parseFloat` stay symbolic. A payload records which text each
number was parsed from (`ParseIntOf`, `ParseFloatOf`), not the number itself.

## Behaviour as written in the code

The model follows the code in the places where a reader might expect
something else:

- Cancel hides a form and keeps its draft (Dashboard.js:313-318 and 386-391). Reopening the form shows the old draft. See `Dashboard.CancelThenOpenKeepsDraft`.
- No "submitting" flag exists, and the Save buttons (Dashboard.js:309 and 382) are never disabled. A save can be triggered again while a request is in flight. Because the model takes a save as one step, it does not exhibit this (see "## Left out").
- A workout row is sent when its trimmed name is non-empty and its duration text is non-empty. The duration is not checked to be numeric.
- A food row is sent when its trimmed name is non-empty. Its quantity is never checked.
- A meal is refused only when its type is empty. A meal with no food rows left after filtering is still sent (`Submission.MealWithBlankFoodsIsSent`).
- The summary refresh after a save never checks the response status. A non-OK answer with a JSON body is taken as the new summary, and the form closes and resets. Only a rejected fetch or a body that is not JSON counts as a failed refresh.
- A save whose POST succeeds but whose summary refresh fails keeps the form open with its draft and shows an alert. The server has already accepted the entry, so saving again sends it a second time.
- Login compares passwords as plain text, while the re-hash script replaces stored passwords by hashes. After the script runs, a rewritten user's old password gets 401 (`Migration.RehashedUserCannotLogInWithOldPassword`).

## Model

| member | source | states |
|---|---|---|
| `Seqs.Filter` | frontend/src/pages/Dashboard.js:79-81 | Every kept row is a row of the input that passes the test, every passing row is kept, and nothing is kept exactly when no row passes |
| `Seqs.FilterConcat` | frontend/src/pages/Dashboard.js:79-81 | Filtering a concatenation is the concatenation of the filtered parts, so kept rows stay in their original order |
| `Seqs.FilterAround` | frontend/src/pages/Dashboard.js:167-168 | A row contributes itself, at its own position, exactly when it passes the test |
| `Seqs.FilterSingleSurvivor` | frontend/src/pages/Dashboard.js:79-81 | When one row passes and all around it fail, the result is that row alone |
| `Seqs.FilterKeepsAll` | frontend/src/pages/Dashboard.js:79-81 | The filter returns its input unchanged exactly when every element passes |
| `Seqs.CountIsFilterLength` | backend/hash_passwords.py:13-17 | A running count of passing elements ends at the number of elements the filter keeps |
| `Seqs.KeepOtherPositions` | frontend/src/pages/Dashboard.js:143 | Filtering by position drops exactly the element at the given index and keeps the rest in order; an index outside the list drops nothing |
| `Seqs.RemoveAt` | frontend/src/pages/Dashboard.js:155 | Removing an index in range shortens the list by one: elements before it stay, elements after it shift down by one; any other index leaves the list as it was |
| `JsText.TrimStart` | frontend/src/pages/Dashboard.js:80 | The result is a suffix of the input, everything cut off is whitespace, and the result does not start with whitespace |
| `JsText.TrimEnd` | frontend/src/pages/Dashboard.js:80 | The result is a prefix of the input, everything cut off is whitespace, and the result does not end with whitespace |
| `JsText.Trim` | frontend/src/pages/Dashboard.js:168 | A trimmed string is empty exactly when every character is JavaScript whitespace; otherwise it neither starts nor ends with whitespace |
| `Drafts.UpdateExercise` | frontend/src/pages/Dashboard.js:129-133 | Editing changes only the named field of the row at the index; other rows, the other field, type and date are unchanged; an index with no row yields no draft |
| `Drafts.UpdateFood` | frontend/src/pages/Dashboard.js:37-41 | Editing changes only the named field of the row at the index; an edited quantity becomes the typed text; everything else is unchanged; an index with no row yields no draft |
| `Drafts.AddExerciseRow` | frontend/src/pages/Dashboard.js:135-140 | Exactly one blank row is appended; every existing row, the type and the date are unchanged |
| `Drafts.AddFoodRow` | frontend/src/pages/Dashboard.js:147-152 | Exactly one blank row (empty name, quantity 1) is appended; every existing row, the type and the date are unchanged |
| `Drafts.RemoveExerciseRow` | frontend/src/pages/Dashboard.js:142-145 | The row list loses exactly the row at the index and keeps the others in order; an index with no row changes nothing |
| `Drafts.RemoveFoodRow` | frontend/src/pages/Dashboard.js:154-157 | The row list loses exactly the row at the index and keeps the others in order; an index with no row changes nothing |
| `Drafts.AddThenRemoveExercise` | frontend/src/pages/Dashboard.js:135-145 | Removing the row just added restores the draft |
| `Drafts.AddThenRemoveFood` | frontend/src/pages/Dashboard.js:147-157 | Removing the row just added restores the draft |
| `Submission.WorkoutPayloadOf` | frontend/src/pages/Dashboard.js:79-94 | The save is refused with "Please add at least one exercise." exactly when no row has a non-blank name and a non-empty duration; otherwise type and date are copied and the exercises are those rows in order, with names unchanged and durations parsed |
| `Submission.MealPayloadOf` | frontend/src/pages/Dashboard.js:160-173 | The save is refused with "Select meal type" exactly when the meal type is empty; otherwise type and date are copied and the foods are the rows with a non-blank name, in order |
| `Submission.OnlySavableExerciseIsSent` | frontend/src/pages/Dashboard.js:79-94 | A workout with one savable row among unsavable ones sends that row alone |
| `Submission.AllSavableExercisesAreSent` | frontend/src/pages/Dashboard.js:79-94 | When every row of a non-empty workout is savable, all rows are sent, in order |
| `Submission.NamedFoodsAreAllSent` | frontend/src/pages/Dashboard.js:160-173 | When a meal has a type and every food row is named, all rows are sent, in order |
| `Submission.MealWithBlankFoodsIsSent` | frontend/src/pages/Dashboard.js:160-173 | A meal with a type but only blank food rows is still sent, with an empty food list |
| `Submission.SaveWorkout` | frontend/src/pages/Dashboard.js:78-127 | A request is sent exactly when the check passes, carrying the checked payload; only a sent request followed by a refreshed summary closes the form and resets it to one blank row with empty type and today's date; every other path leaves form and summary unchanged and shows an alert, which is "Failed to add workout" for a non-OK status and the browser's message for a failed fetch |
| `Submission.SaveMeal` | frontend/src/pages/Dashboard.js:159-204 | A request is sent exactly when the meal type is set, carrying the checked payload; only a sent request followed by a refreshed summary closes and resets the form; every other path leaves form and summary unchanged and shows an alert, which is "Failed to add meal" for a non-OK status and the browser's message for a failed fetch |
| `Dashboard.ToggleWorkoutExpand` | frontend/src/pages/Dashboard.js:22-26 | After a click, a workout is expanded exactly when it is the clicked one and the clicked one was not expanded before |
| `Dashboard.ToggleTwice` | frontend/src/pages/Dashboard.js:24-26 | Clicking the same workout twice restores the previous state, except that a different workout expanded before ends up collapsed |
| `Dashboard.Enabled` | frontend/src/pages/Dashboard.js:221-391 | The header buttons are always available; a form's cancel, save, add and header inputs are available exactly when the form is shown; a row's inputs exactly when the form is shown and the row is drawn; a row's remove button exactly when, in addition, the form has two or more rows |
| `Dashboard.Next` | frontend/src/pages/Dashboard.js:221-391 | Opening and cancelling set only their form's shown flag and keep its draft; each edit sets only its own field (type, date, or the row field through the row update) and leaves the rest of the page as it was; add and remove change only their form's rows; a save changes only its own form and the summary, as the save step decides, and sends its request to its own endpoint; only a click on a workout moves the expanded slot; only saves send requests or show alerts |
| `Dashboard.RunExpandedFollowsToggles` | frontend/src/pages/Dashboard.js:22-26 | After any sequence of events, the expanded workout is what the workout clicks alone make of the starting one |
| `Dashboard.NextKeepsRows` | frontend/src/pages/Dashboard.js:293-300 | No enabled event leaves either form without rows, because removal is disabled while a form has one row |
| `Dashboard.OnlySavesSend` | frontend/src/pages/Dashboard.js:97-105 | Only a save event sends a request, and it goes to the endpoint of that event's form |
| `Dashboard.CancelThenOpenKeepsDraft` | frontend/src/pages/Dashboard.js:313-318 | Cancelling and reopening the workout form gives back the same page, draft included |
| `Dashboard.RunKeepsRows` | frontend/src/pages/Dashboard.js:364-370 | Along any sequence of enabled events, forms that start with rows keep at least one row |
| `Dashboard.ReachablePagesHaveRows` | frontend/src/pages/Dashboard.js:16-35 | Every page reachable from the first render has at least one row in each form |
| `Users.FirstWithEmail` | backend/app.py:64 | The lookup returns the first row, in table order, whose email matches, and returns nothing exactly when no row matches |
| `Users.FirstWithEmailIsTheOwner` | backend/models.py:8 | With unique emails, looking up a row's email finds that row |
| `Api.Login` | backend/app.py:55-78 | A non-object body crashes; a falsy email or password gets 400; 200 comes exactly when the first row with the submitted email stores a string equal to the submitted password, and the user returned is that row's id, username, email and age |
| `Api.UnknownEmailIsRefused` | backend/app.py:63-78 | An email no row carries gets 401 with "Invalid email or password", whatever the password |
| `Api.WrongPasswordIsRefused` | backend/app.py:64-78 | When the first row with the email stores a different password, or none, the answer is 401 with "Invalid email or password" |
| `Api.StoredCredentialsLogIn` | backend/app.py:64-76 | With unique emails, a row's own non-empty email and password log in with 200 and "Login successful", and return that row's public profile |
| `Api.GetUsers` | backend/app.py:37-49 | One entry per row, in table order, each with the row's id, username, email, age and gender |
| `Migration.NeedsHash` | backend/hash_passwords.py:7-9 | A non-string always needs hashing; a string needs it exactly when its first seven characters are not "pbkdf2:" |
| `Migration.Migrate` | backend/hash_passwords.py:11-21 | A selected user gets a hash of their old password, drawn for their loop position, and nothing else about them changes; every other user is untouched; the count is the number of selected users; the commit happens exactly when the count is non-zero; the table after the loop is the one the migration lemmas reason about (`Migrated`) |
| `Migration.NoCommitNeededWhenNothingSelected` | backend/hash_passwords.py:19-20 | When no user is selected, the loop has left every row as it was, so skipping the commit loses nothing |
| `Migration.EqualPasswordsNeedNotHashAlike` | backend/hash_passwords.py:16 | Two users with the same plain-text password can end up with different stored hashes |
| `Migration.SecondRunSelectsNobody` | backend/hash_passwords.py:7-16 | When every hash begins with "pbkdf2:", a second run selects no user |
| `Migration.OtherHashFormatIsHashedAgain` | backend/hash_passwords.py:7-16 | When the hash does not begin with "pbkdf2:", a second run hashes the stored hash again |
| `Migration.RehashedUserCannotLogInWithOldPassword` | backend/app.py:66 | After the script rewrites a user's password, logging in with the old password gets 401, unless the hash equals it |

## Left out

- Fetch calls, HTTP status handling, the summary fetch on mount and its `AbortController`, `localStorage`, logout and `window.location` redirects: browser and network I/O. A save's network outcome enters as `Submission.Reply`.
- The numbers `parseInt` and `parseFloat` produce: JavaScript coercion and floating point. Payloads keep the text each number was parsed from.
- JSX rendering, the "—" placeholders and the summary cards and tables: presentation. The summary body is opaque (`Submission.Summary`).
- `frontend/src/components/LoginPage.jsx`, `frontend/src/pages/Signup.jsx` and `frontend/src/App.jsx`: network glue and a static route table. App.jsx has no `/signup` or `/register` route, although LoginPage.jsx links to `/register`.
- `backend/models.py`, apart from the unique constraint on `email`: schema declarations with no behaviour.
- `backend/reset_password.py`: a one-off fix on hard-coded data.
- Flask, CORS, SQLAlchemy sessions and `generate_password_hash`: foreign libraries. The query is a search over a sequence and the hash is a parameter.
- Migration.Migrate: the salts themselves are not modelled. `hash(pw, i)` stands for one fixed draw per loop position, so the model says nothing about how likely two hashes are to collide.
- Whether `generate_password_hash` output starts with "pbkdf2:": this depends on the library version and its default method. The two migration lemmas about a second run state both cases.
- The lines printed by the re-hash script: output only.
- Api.Login: a truthy email that is not a string is treated as matching no row. The database driver's type coercion of such a value is not modelled.
- Api.Login: JSON numbers with a fraction, malformed JSON and a wrong content type are not modelled. The last two make the request fail inside `login`, at the `request.get_json()` call (backend/app.py:56), with a status that depends on the Werkzeug version: 400 for malformed JSON; 415 for a wrong content type from Werkzeug 2.3 on, 400 in 2.1 and 2.2. Older Werkzeug returns `None` for a wrong content type, and `data.get` then fails with 500, which is the model's `Crashed` for the body `Null`.
- Users.FirstWithEmail: "first" means first in the sequence given. The query has no `ORDER BY`, so the real order is whatever the database returns.
- Users.FirstWithEmail: emails match by exact string equality. The real SQL `=` follows the column's collation, which the code does not fix; under common MySQL collations it ignores case and trailing spaces.
- Dashboard.Next: a save is one atomic step. In the page, `handleAddWorkout` and `handleAddMeal` wait on two fetches (Dashboard.js:98-111 and 176-189) while the page stays live, and then reset the form unconditionally (114-121 and 192-199). The model does not interleave events with a save in flight, so it does not show three consequences: edits typed during the wait are overwritten by the reset; Cancel during the wait followed by Open shows a blank draft, not the kept one of `Dashboard.CancelThenOpenKeepsDraft`; and a second click on Save during the wait sends a second POST.
- Dashboard.Next: every event is handled against the latest state. React's asynchronous state updates are not modelled, and neither are stale closures between an `await` and a later `setState`. One `today` stands for the clock at every reset.

=== FILE: api.dfy ===
/** The Flask endpoints of the core: `POST /login` and `GET /users`. */
module Api {
  import opened Wrappers
  import opened PyValues
  import opened Users

  /** The user object of a successful login: the password is not part of it. */
  datatype LoginUser = LoginUser(id: int, username: string, email: string, age: Option<int>)

  /** One entry of the `/users` listing: again without the password. */
  datatype ListedUser = ListedUser(id: int, username: string, email: string, age: Option<int>, gender: Option<string>)

  /** The answers of `POST /login`. `Crashed` is the server error Flask
      returns when `data` is not an object, so that `data.get` raises: a JSON
      body that is not an object, or `None` from `get_json()`, which older
      Werkzeug returns for a wrong content type. */
  datatype LoginReply =
    | MissingCredentials
    | InvalidCredentials
    | LoggedIn(user: LoginUser)
    | Crashed

  function Status(r: LoginReply): int {
    match r
    case MissingCredentials => 400
    case InvalidCredentials => 401
    case LoggedIn(_) => 200
    case Crashed => 500
  }

  /** The `message` field of the JSON body; a crash has no JSON body. */
  function Message(r: LoginReply): Option<string> {
    match r
    case MissingCredentials => Some("Missing email or password")
    case InvalidCredentials => Some("Invalid email or password")
    case LoggedIn(_) => Some("Login successful")
    case Crashed => None
  }

  function LoginProfile(u: User): LoginUser {
    LoginUser(u.userId, u.username, u.email, u.age)
  }

  function ListingEntry(u: User): ListedUser {
    ListedUser(u.userId, u.username, u.email, u.age, u.gender)
  }

  /** The row the login looks up: the first with a matching email. A
      non-string email matches no row here. */
  function LookUp(users: seq<User>, email: Value): Option<nat> {
    if email.Str? then FirstWithEmail(users, email.s) else None
  }

  /** `login()`. Both fields must be truthy, or the answer is 400. Otherwise
      the answer is 200 exactly when the first row with the submitted email
      stores a password equal to the submitted one, and the user object is
      that row's public profile; every other case is 401. */
  function Login(body: Value, users: seq<User>): (r: LoginReply)
    ensures r.Crashed? <==> !body.Dict?
    ensures r.MissingCredentials? <==>
      body.Dict? && !(Truthy(Get(body.entries, "email")) && Truthy(Get(body.entries, "password")))
    ensures r.LoggedIn? <==>
      && body.Dict?
      && Truthy(Get(body.entries, "email")) && Truthy(Get(body.entries, "password"))
      && Get(body.entries, "email").Str? && Get(body.entries, "password").Str?
      && var k := FirstWithEmail(users, Get(body.entries, "email").s);
         k.Some? && users[k.value].password == Some(Get(body.entries, "password").s)
    ensures r.LoggedIn? ==>
      var k := FirstWithEmail(users, Get(body.entries, "email").s);
      k.Some? && r.user == LoginUser(users[k.value].userId, users[k.value].username, users[k.value].email, users[k.value].age)
  {
    if !body.Dict? then Crashed
    else
      var email := Get(body.entries, "email");
      var password := Get(body.entries, "password");
      if !Truthy(email) || !Truthy(password) then MissingCredentials
      else match LookUp(users, email)
        case None => InvalidCredentials
        case Some(k) =>
          if password.Str? && users[k].password == Some(password.s) then LoggedIn(LoginProfile(users[k]))
          else InvalidCredentials
  }

  /** A request body carrying `email` and `password` as strings. */
  function Credentials(email: string, password: string): Value {
    Dict(map["email" := Str(email), "password" := Str(password)])
  }

  /** An email no row carries is refused with 401, whatever the password. */
  lemma UnknownEmailIsRefused(users: seq<User>, email: string, password: string)
    requires email != "" && password != ""
    requires forall k :: 0 <= k < |users| ==> users[k].email != email
    ensures Login(Credentials(email, password), users) == InvalidCredentials
    ensures Status(Login(Credentials(email, password), users)) == 401
    ensures Message(Login(Credentials(email, password), users)) == Some("Invalid email or password")
  {
  }

  /** When the first row with the email stores a different password, or none, the answer is 401. */
  lemma WrongPasswordIsRefused(users: seq<User>, k: nat, password: string)
    requires k < |users| && users[k].email != "" && password != ""
    requires forall j :: 0 <= j < k ==> users[j].email != users[k].email
    requires users[k].password != Some(password)
    ensures Login(Credentials(users[k].email, password), users) == InvalidCredentials
    ensures Message(Login(Credentials(users[k].email, password), users)) == Some("Invalid email or password")
  {
    assert FirstWithEmail(users, users[k].email) == Some(k);
  }

  /** With unique emails, every user logs in with the stored email and
      password (both non-empty) and gets back their own profile. */
  lemma StoredCredentialsLogIn(users: seq<User>, k: nat)
    requires UniqueEmails(users) && k < |users|
    requires users[k].email != "" && users[k].password.Some? && users[k].password.value != ""
    ensures Login(Credentials(users[k].email, users[k].password.value), users) == LoggedIn(LoginProfile(users[k]))
    ensures Status(Login(Credentials(users[k].email, users[k].password.value), users)) == 200
    ensures Message(Login(Credentials(users[k].email, users[k].password.value), users)) == Some("Login successful")
  {
    FirstWithEmailIsTheOwner(users, k);
  }

  /** `get_users()`: one entry per row, in table order, carrying the id and
      the four public columns of that row. */
  method GetUsers(users: seq<User>) returns (listing: seq<ListedUser>)
    ensures |listing| == |users|
    ensures forall i :: 0 <= i < |users| ==>
      && listing[i].id == users[i].userId
      && listing[i].username == users[i].username
      && listing[i].email == users[i].email
      && listing[i].age == users[i].age
      && listing[i].gender == users[i].gender
  {
    listing := [];
    for i := 0 to |users|
      invariant |listing| == i
      invariant forall k :: 0 <= k < i ==> listing[k] == ListingEntry(users[k])
    {
      listing := listing + [ListingEntry(users[i])];
    }
  }
}

=== FILE: dashboard.dfy ===
/** The dashboard page as a state machine: the two entry forms, the summary
    last fetched, and the one-slot "expanded workout" of the workouts table.
    Every user action is an `Event`; `Next` is the page's reaction to it. */
module Dashboard {
  import opened Wrappers
  import opened Drafts
  import opened Submission

  /** The `workout_id` of a row of the recent-workouts table. */
  type WorkoutId = int

  /** A workout's exercise list is shown exactly when its id is the expanded one. */
  predicate IsExpanded(expanded: Option<WorkoutId>, id: WorkoutId) {
    expanded == Some(id)
  }

  /** `toggleWorkoutExpand(id)`: clicking the expanded workout collapses it;
      clicking any other workout makes it the only expanded one. */
  function ToggleWorkoutExpand(expanded: Option<WorkoutId>, id: WorkoutId): (r: Option<WorkoutId>)
    ensures forall w :: IsExpanded(r, w) <==> w == id && !IsExpanded(expanded, id)
  {
    if expanded == Some(id) then None else Some(id)
  }

  /** Clicking the same workout twice restores the state before the first
      click, unless a different workout was expanded then: that one stays
      collapsed. */
  lemma ToggleTwice(expanded: Option<WorkoutId>, id: WorkoutId)
    ensures ToggleWorkoutExpand(ToggleWorkoutExpand(expanded, id), id) ==
      if expanded == None || expanded == Some(id) then expanded else None
  {
  }

  /** The page's local state. */
  datatype Page = Page(
    workoutForm: Form<WorkoutDraft>,
    mealForm: Form<MealDraft>,
    expandedWorkout: Option<WorkoutId>,
    summary: Option<Summary>)

  /** The page as first rendered: both forms hidden and blank, nothing
      expanded, no summary yet. */
  function InitialPage(today: string): Page {
    Page(Form(false, NewWorkoutDraft(today)), Form(false, NewMealDraft(today)), None, None)
  }

  /** The user's actions on the page. The save events carry what the server
      would do with the request, should one be sent. */
  datatype Event =
    | OpenWorkoutForm
    | CancelWorkoutForm
    | EditWorkoutType(value: string)
    | EditWorkoutDate(value: string)
    | EditExercise(index: int, exerciseField: ExerciseField, value: string)
    | AddExercise
    | RemoveExercise(index: int)
    | SaveWorkoutForm(reply: Reply)
    | OpenMealForm
    | CancelMealForm
    | EditMealType(value: string)
    | EditFood(index: int, foodField: FoodField, value: string)
    | AddFood
    | RemoveFood(index: int)
    | SaveMealForm(reply: Reply)
    | ToggleWorkout(id: WorkoutId)

  /** The controls drawn inside the workout form. */
  predicate IsWorkoutFormControl(e: Event) {
    e.CancelWorkoutForm? || e.EditWorkoutType? || e.EditWorkoutDate? || e.EditExercise?
    || e.AddExercise? || e.RemoveExercise? || e.SaveWorkoutForm?
  }

  /** The controls drawn inside the meal form. */
  predicate IsMealFormControl(e: Event) {
    e.CancelMealForm? || e.EditMealType? || e.EditFood? || e.AddFood? || e.RemoveFood? || e.SaveMealForm?
  }

  /** Whether the control behind `e` is on screen and not disabled: form
      controls exist only while their form is shown, row controls only for
      rendered rows, and a row's remove button is disabled while it is the
      only row. The header buttons are always there. The workouts table is
      rendered only once a summary listing workouts has arrived; this model
      lets a workout be toggled in any state, which allows more event
      sequences than the page does and loses none. */
  predicate Enabled(p: Page, e: Event): (b: bool)
    ensures e.OpenWorkoutForm? || e.OpenMealForm? || e.ToggleWorkout? ==> b
    ensures IsWorkoutFormControl(e) && !p.workoutForm.shown ==> !b
    ensures IsMealFormControl(e) && !p.mealForm.shown ==> !b
    ensures IsWorkoutFormControl(e) && !e.EditExercise? && !e.RemoveExercise? ==> (b <==> p.workoutForm.shown)
    ensures IsMealFormControl(e) && !e.EditFood? && !e.RemoveFood? ==> (b <==> p.mealForm.shown)
    ensures e.EditExercise? ==> (b <==> p.workoutForm.shown && 0 <= e.index < |p.workoutForm.draft.exercises|)
    ensures e.EditFood? ==> (b <==> p.mealForm.shown && 0 <= e.index < |p.mealForm.draft.foods|)
    ensures e.RemoveExercise? ==>
      (b <==> p.workoutForm.shown && 0 <= e.index < |p.workoutForm.draft.exercises| && |p.workoutForm.draft.exercises| >= 2)
    ensures e.RemoveFood? ==>
      (b <==> p.mealForm.shown && 0 <= e.index < |p.mealForm.draft.foods| && |p.mealForm.draft.foods| >= 2)
  {
    match e
    case OpenWorkoutForm => true
    case OpenMealForm => true
    case ToggleWorkout(_) => true
    case EditWorkoutType(_) | EditWorkoutDate(_) | AddExercise | CancelWorkoutForm | SaveWorkoutForm(_) =>
      p.workoutForm.shown
    case EditExercise(i, _, _) =>
      p.workoutForm.shown && 0 <= i < |p.workoutForm.draft.exercises|
    case RemoveExercise(i) =>
      p.workoutForm.shown && 0 <= i < |p.workoutForm.draft.exercises| && |p.workoutForm.draft.exercises| != 1
    case EditMealType(_) | AddFood | CancelMealForm | SaveMealForm(_) =>
      p.mealForm.shown
    case EditFood(i, _, _) =>
      p.mealForm.shown && 0 <= i < |p.mealForm.draft.foods|
    case RemoveFood(i) =>
      p.mealForm.shown && 0 <= i < |p.mealForm.draft.foods| && |p.mealForm.draft.foods| != 1
  }

  /** A request the page sends. */
  datatype Request = PostWorkout(workout: WorkoutPayload) | PostMeal(meal: MealPayload)

  /** The page after an event, the request it sent and the alert it showed. */
  datatype Step = Step(page: Page, request: Option<Request>, alert: Option<string>)

  function Quiet(p: Page): Step {
    Step(p, None, None)
  }

  /** A step that neither sends a request nor shows an alert. */
  predicate Silent(s: Step) {
    s.request.None? && s.alert.None?
  }

  /** `q` differs from `p` at most in the workout form. */
  predicate WorkoutFormOnly(p: Page, q: Page) {
    q.mealForm == p.mealForm && q.expandedWorkout == p.expandedWorkout && q.summary == p.summary
  }

  /** `q` differs from `p` at most in the workout draft; the form stays shown or hidden. */
  predicate WorkoutDraftOnly(p: Page, q: Page) {
    WorkoutFormOnly(p, q) && q.workoutForm.shown == p.workoutForm.shown
  }

  /** `q` differs from `p` at most in the meal form. */
  predicate MealFormOnly(p: Page, q: Page) {
    q.workoutForm == p.workoutForm && q.expandedWorkout == p.expandedWorkout && q.summary == p.summary
  }

  /** `q` differs from `p` at most in the meal draft; the form stays shown or hidden. */
  predicate MealDraftOnly(p: Page, q: Page) {
    MealFormOnly(p, q) && q.mealForm.shown == p.mealForm.shown
  }

  /** The page's reaction to one event; `today` is the clock reading used
      when a saved form is reset. Opening and cancelling only show and hide a
      form: the draft is kept. */
  function Next(p: Page, e: Event, today: string): (s: Step)
    ensures !(e.SaveWorkoutForm? || e.SaveMealForm?) ==> Silent(s)
    ensures e.OpenWorkoutForm? || e.CancelWorkoutForm? ==>
      WorkoutFormOnly(p, s.page) && s.page.workoutForm == Form(e.OpenWorkoutForm?, p.workoutForm.draft)
    ensures e.OpenMealForm? || e.CancelMealForm? ==>
      MealFormOnly(p, s.page) && s.page.mealForm == Form(e.OpenMealForm?, p.mealForm.draft)
    ensures e.EditWorkoutType? ==>
      && WorkoutDraftOnly(p, s.page)
      && s.page.workoutForm.draft.workoutType == e.value
      && s.page.workoutForm.draft.workoutDate == p.workoutForm.draft.workoutDate
      && s.page.workoutForm.draft.exercises == p.workoutForm.draft.exercises
    ensures e.EditWorkoutDate? ==>
      && WorkoutDraftOnly(p, s.page)
      && s.page.workoutForm.draft.workoutType == p.workoutForm.draft.workoutType
      && s.page.workoutForm.draft.workoutDate == e.value
      && s.page.workoutForm.draft.exercises == p.workoutForm.draft.exercises
    ensures e.EditMealType? ==>
      && MealDraftOnly(p, s.page)
      && s.page.mealForm.draft.mealType == e.value
      && s.page.mealForm.draft.mealDate == p.mealForm.draft.mealDate
      && s.page.mealForm.draft.foods == p.mealForm.draft.foods
    ensures e.EditExercise? ==>
      && WorkoutDraftOnly(p, s.page)
      && var d := UpdateExercise(p.workoutForm.draft, e.index, e.exerciseField, e.value);
         if d.Some? then s.page.workoutForm.draft == d.value else s.page == p
    ensures e.EditFood? ==>
      && MealDraftOnly(p, s.page)
      && var d := UpdateFood(p.mealForm.draft, e.index, e.foodField, e.value);
         if d.Some? then s.page.mealForm.draft == d.value else s.page == p
    ensures e.AddExercise? ==>
      WorkoutDraftOnly(p, s.page) && s.page.workoutForm.draft == AddExerciseRow(p.workoutForm.draft)
    ensures e.RemoveExercise? ==>
      WorkoutDraftOnly(p, s.page) && s.page.workoutForm.draft == RemoveExerciseRow(p.workoutForm.draft, e.index)
    ensures e.AddFood? ==>
      MealDraftOnly(p, s.page) && s.page.mealForm.draft == AddFoodRow(p.mealForm.draft)
    ensures e.RemoveFood? ==>
      MealDraftOnly(p, s.page) && s.page.mealForm.draft == RemoveFoodRow(p.mealForm.draft, e.index)
    ensures e.SaveWorkoutForm? ==>
      var saved := SaveWorkout(p.workoutForm, p.summary, e.reply, today);
      && s.page == p.(workoutForm := saved.form, summary := saved.summary)
      && s.alert == saved.alert
      && (s.request.Some? <==> saved.request.Some?)
      && (s.request.Some? ==> s.request.value == PostWorkout(saved.request.value))
    ensures e.SaveMealForm? ==>
      var saved := SaveMeal(p.mealForm, p.summary, e.reply, today);
      && s.page == p.(mealForm := saved.form, summary := saved.summary)
      && s.alert == saved.alert
      && (s.request.Some? <==> saved.request.Some?)
      && (s.request.Some? ==> s.request.value == PostMeal(saved.request.value))
    ensures e.ToggleWorkout? ==>
      s.page == p.(expandedWorkout := ToggleWorkoutExpand(p.expandedWorkout, e.id))
    ensures !e.ToggleWorkout? ==> s.page.expandedWorkout == p.expandedWorkout
  {
    match e
    case OpenWorkoutForm => Quiet(p.(workoutForm := p.workoutForm.(shown := true)))
    case CancelWorkoutForm => Quiet(p.(workoutForm := p.workoutForm.(shown := false)))
    case EditWorkoutType(v) => Quiet(p.(workoutForm := p.workoutForm.(draft := p.workoutForm.draft.(workoutType := v))))
    case EditWorkoutDate(v) => Quiet(p.(workoutForm := p.workoutForm.(draft := p.workoutForm.draft.(workoutDate := v))))
    case EditExercise(i, f, v) =>
      (match UpdateExercise(p.workoutForm.draft, i, f, v)
       case Some(d) => Quiet(p.(workoutForm := p.workoutForm.(draft := d)))
       case None => Quiet(p))
    case AddExercise => Quiet(p.(workoutForm := p.workoutForm.(draft := AddExerciseRow(p.workoutForm.draft))))
    case RemoveExercise(i) => Quiet(p.(workoutForm := p.workoutForm.(draft := RemoveExerciseRow(p.workoutForm.draft, i))))
    case SaveWorkoutForm(reply) =>
      var s := SaveWorkout(p.workoutForm, p.summary, reply, today);
      Step(p.(workoutForm := s.form, summary := s.summary),
           if s.request.Some? then Some(PostWorkout(s.request.value)) else None,
           s.alert)
    case OpenMealForm => Quiet(p.(mealForm := p.mealForm.(shown := true)))
    case CancelMealForm => Quiet(p.(mealForm := p.mealForm.(shown := false)))
    case EditMealType(v) => Quiet(p.(mealForm := p.mealForm.(draft := p.mealForm.draft.(mealType := v))))
    case EditFood(i, f, v) =>
      (match UpdateFood(p.mealForm.draft, i, f, v)
       case Some(d) => Quiet(p.(mealForm := p.mealForm.(draft := d)))
       case None => Quiet(p))
    case AddFood => Quiet(p.(mealForm := p.mealForm.(draft := AddFoodRow(p.mealForm.draft))))
    case RemoveFood(i) => Quiet(p.(mealForm := p.mealForm.(draft := RemoveFoodRow(p.mealForm.draft, i))))
    case SaveMealForm(reply) =>
      var s := SaveMeal(p.mealForm, p.summary, reply, today);
      Step(p.(mealForm := s.form, summary := s.summary),
           if s.request.Some? then Some(PostMeal(s.request.value)) else None,
           s.alert)
    case ToggleWorkout(id) => Quiet(p.(expandedWorkout := ToggleWorkoutExpand(p.expandedWorkout, id)))
  }

  /** Both forms hold at least one row. */
  predicate HasRows(p: Page) {
    |p.workoutForm.draft.exercises| >= 1 && |p.mealForm.draft.foods| >= 1
  }

  /** No enabled event empties a form: removal is offered only while a form
      has two or more rows, and a successful save resets it to one row. */
  lemma NextKeepsRows(p: Page, e: Event, today: string)
    requires HasRows(p) && Enabled(p, e)
    ensures HasRows(Next(p, e, today).page)
  {
  }

  /** Only the save events send requests, and a request goes to the form the event belongs to. */
  lemma OnlySavesSend(p: Page, e: Event, today: string)
    ensures Next(p, e, today).request.Some? ==> e.SaveWorkoutForm? || e.SaveMealForm?
    ensures Next(p, e, today).request.Some? && e.SaveWorkoutForm? ==> Next(p, e, today).request.value.PostWorkout?
    ensures Next(p, e, today).request.Some? && e.SaveMealForm? ==> Next(p, e, today).request.value.PostMeal?
  {
  }

  /** Cancelling a form and opening it again shows the same draft: cancel hides the form and discards nothing. */
  lemma CancelThenOpenKeepsDraft(p: Page, today: string)
    requires p.workoutForm.shown
    ensures
      var q := Next(Next(p, CancelWorkoutForm, today).page, OpenWorkoutForm, today).page;
      q == p
  {
  }

  /** The page after a sequence of events, each taken only if enabled in the
      state it meets; the whole run counts as enabled when every event was. */
  function Run(p: Page, events: seq<Event>, today: string): Page
    decreases |events|
  {
    if |events| == 0 then p else Run(Next(p, events[0], today).page, events[1..], today)
  }

  predicate RunEnabled(p: Page, events: seq<Event>, today: string)
    decreases |events|
  {
    |events| == 0 || (Enabled(p, events[0]) && RunEnabled(Next(p, events[0], today).page, events[1..], today))
  }

  /** The expanded workout after a sequence of events, reading only the toggles. */
  function ExpandedAfter(expanded: Option<WorkoutId>, events: seq<Event>): Option<WorkoutId>
    decreases |events|
  {
    if |events| == 0 then expanded
    else
      var next := if events[0].ToggleWorkout? then ToggleWorkoutExpand(expanded, events[0].id) else expanded;
      ExpandedAfter(next, events[1..])
  }

  /** Only clicks on workouts move the expanded slot: after any sequence of
      events it is what the toggles alone make of it, whatever the forms did
      in between. */
  lemma {:induction false} RunExpandedFollowsToggles(p: Page, events: seq<Event>, today: string)
    ensures Run(p, events, today).expandedWorkout == ExpandedAfter(p.expandedWorkout, events)
    decreases |events|
  {
    if |events| > 0 {
      RunExpandedFollowsToggles(Next(p, events[0], today).page, events[1..], today);
    }
  }

  /** From any page whose forms have rows, no sequence of enabled events leaves a form without rows. */
  lemma {:induction false} RunKeepsRows(p: Page, events: seq<Event>, today: string)
    requires HasRows(p) && RunEnabled(p, events, today)
    ensures HasRows(Run(p, events, today))
    decreases |events|
  {
    if |events| > 0 {
      NextKeepsRows(p, events[0], today);
      RunKeepsRows(Next(p, events[0], today).page, events[1..], today);
    }
  }

  /** The page as first rendered has rows in both forms, so every reachable page does. */
  lemma ReachablePagesHaveRows(events: seq<Event>, today: string)
    requires RunEnabled(InitialPage(today), events, today)
    ensures HasRows(Run(InitialPage(today), events, today))
  {
    RunKeepsRows(InitialPage(today), events, today);
  }
}

=== FILE: drafts.dfy ===
/** The workout and meal drafts of the dashboard: ordered lists of rows that
    can grow by one blank row, shrink by one row, or have one field edited. */
module Drafts {
  import opened Wrappers
  import opened Seqs

  /** One exercise row of the workout form; both fields hold the text typed
      into their inputs. */
  datatype ExerciseRow = ExerciseRow(exerciseName: string, durationMin: string)

  /** The quantity of a food row: the number 1 a new row starts with, or the
      text typed into the number input once it has been edited. */
  datatype Quantity = DefaultOne | Typed(text: string)

  /** One food row of the meal form. */
  datatype FoodRow = FoodRow(foodName: string, quantity: Quantity)

  /** The workout form's state. */
  datatype WorkoutDraft = WorkoutDraft(workoutType: string, workoutDate: string, exercises: seq<ExerciseRow>)

  /** The meal form's state. */
  datatype MealDraft = MealDraft(mealType: string, mealDate: string, foods: seq<FoodRow>)

  /** The input an edit event comes from. */
  datatype ExerciseField = ExerciseName | DurationMin
  datatype FoodField = FoodName | FoodQuantity

  const BlankExercise := ExerciseRow("", "")
  const BlankFood := FoodRow("", DefaultOne)

  /** The workout form when the page loads and after every successful save;
      `today` is `new Date().toISOString().slice(0, 10)`: the current date
      in UTC as `YYYY-MM-DD`, which can differ from the local calendar date. */
  function NewWorkoutDraft(today: string): WorkoutDraft {
    WorkoutDraft("", today, [BlankExercise])
  }

  /** The meal form when the page loads and after every successful save. */
  function NewMealDraft(today: string): MealDraft {
    MealDraft("", today, [BlankFood])
  }

  /** `updateExercise(index, field, value)`: sets one field of one row. An
      index with no row makes the handler throw, so no new draft results. */
  function UpdateExercise(d: WorkoutDraft, index: int, field: ExerciseField, value: string): (r: Option<WorkoutDraft>)
    ensures r.None? <==> !(0 <= index < |d.exercises|)
    ensures r.Some? ==>
      && r.value.workoutType == d.workoutType
      && r.value.workoutDate == d.workoutDate
      && |r.value.exercises| == |d.exercises|
      && (forall j :: 0 <= j < |d.exercises| && j != index ==> r.value.exercises[j] == d.exercises[j])
    ensures r.Some? && field == ExerciseName ==>
      r.value.exercises[index] == ExerciseRow(value, d.exercises[index].durationMin)
    ensures r.Some? && field == DurationMin ==>
      r.value.exercises[index] == ExerciseRow(d.exercises[index].exerciseName, value)
  {
    if 0 <= index < |d.exercises| then
      var row := d.exercises[index];
      var row' := match field
        case ExerciseName => row.(exerciseName := value)
        case DurationMin => row.(durationMin := value);
      Some(d.(exercises := d.exercises[index := row']))
    else None
  }

  /** `updateFood(index, field, value)`: sets one field of one row; a typed
      quantity replaces the initial number by the input's text. */
  function UpdateFood(d: MealDraft, index: int, field: FoodField, value: string): (r: Option<MealDraft>)
    ensures r.None? <==> !(0 <= index < |d.foods|)
    ensures r.Some? ==>
      && r.value.mealType == d.mealType
      && r.value.mealDate == d.mealDate
      && |r.value.foods| == |d.foods|
      && (forall j :: 0 <= j < |d.foods| && j != index ==> r.value.foods[j] == d.foods[j])
    ensures r.Some? && field == FoodName ==>
      r.value.foods[index] == FoodRow(value, d.foods[index].quantity)
    ensures r.Some? && field == FoodQuantity ==>
      r.value.foods[index] == FoodRow(d.foods[index].foodName, Typed(value))
  {
    if 0 <= index < |d.foods| then
      var row := d.foods[index];
      var row' := match field
        case FoodName => row.(foodName := value)
        case FoodQuantity => row.(quantity := Typed(value));
      Some(d.(foods := d.foods[index := row']))
    else None
  }

  /** `addExerciseRow`: one blank row more at the end, everything else kept. */
  function AddExerciseRow(d: WorkoutDraft): (r: WorkoutDraft)
    ensures r.workoutType == d.workoutType && r.workoutDate == d.workoutDate
    ensures |r.exercises| == |d.exercises| + 1
    ensures forall j :: 0 <= j < |d.exercises| ==> r.exercises[j] == d.exercises[j]
    ensures r.exercises[|d.exercises|] == BlankExercise
  {
    d.(exercises := d.exercises + [BlankExercise])
  }

  /** `addFoodRow`: one blank row more at the end, everything else kept. */
  function AddFoodRow(d: MealDraft): (r: MealDraft)
    ensures r.mealType == d.mealType && r.mealDate == d.mealDate
    ensures |r.foods| == |d.foods| + 1
    ensures forall j :: 0 <= j < |d.foods| ==> r.foods[j] == d.foods[j]
    ensures r.foods[|d.foods|] == BlankFood
  {
    d.(foods := d.foods + [BlankFood])
  }

  /** `removeExerciseRow(index)`: the row at `index` is dropped, the others
      keep their order; an index with no row changes nothing. */
  function RemoveExerciseRow(d: WorkoutDraft, index: int): (r: WorkoutDraft)
    ensures r.workoutType == d.workoutType && r.workoutDate == d.workoutDate
    ensures 0 <= index < |d.exercises| ==> r.exercises == d.exercises[..index] + d.exercises[index + 1..]
    ensures !(0 <= index < |d.exercises|) ==> r == d
  {
    var rows := RemoveAt(d.exercises, index);
    assert 0 <= index < |d.exercises| ==> rows == d.exercises[..index] + d.exercises[index + 1..];
    d.(exercises := rows)
  }

  /** `removeFoodRow(index)`: the row at `index` is dropped, the others keep
      their order; an index with no row changes nothing. */
  function RemoveFoodRow(d: MealDraft, index: int): (r: MealDraft)
    ensures r.mealType == d.mealType && r.mealDate == d.mealDate
    ensures 0 <= index < |d.foods| ==> r.foods == d.foods[..index] + d.foods[index + 1..]
    ensures !(0 <= index < |d.foods|) ==> r == d
  {
    var rows := RemoveAt(d.foods, index);
    assert 0 <= index < |d.foods| ==> rows == d.foods[..index] + d.foods[index + 1..];
    d.(foods := rows)
  }

  /** Removing the row just added gives back the draft it was added to. */
  lemma AddThenRemoveExercise(d: WorkoutDraft)
    ensures RemoveExerciseRow(AddExerciseRow(d), |d.exercises|) == d
  {
    var a := AddExerciseRow(d);
    assert a.exercises[..|d.exercises|] == d.exercises;
  }

  /** Removing the row just added gives back the draft it was added to. */
  lemma AddThenRemoveFood(d: MealDraft)
    ensures RemoveFoodRow(AddFoodRow(d), |d.foods|) == d
  {
    var a := AddFoodRow(d);
    assert a.foods[..|d.foods|] == d.foods;
  }
}

=== FILE: js_text.dfy ===
/** The part of JavaScript's string semantics the dashboard relies on: `trim`. */
module JsText {

  /** The code points `String.prototype.trim` strips: ECMAScript WhiteSpace
      (tab, vertical tab, form feed, space, no-break space, byte order mark and
      the other Unicode space separators) and LineTerminator (line feed,
      carriage return, line and paragraph separators). */
  predicate IsJsWhitespace(c: char) {
    || c == '\t' || c == '\n' || c == '\U{000B}' || c == '\U{000C}' || c == '\r'
    || c == ' ' || c == '\U{00A0}' || c == '\U{1680}'
    || ('\U{2000}' <= c <= '\U{200A}')
    || c == '\U{2028}' || c == '\U{2029}' || c == '\U{202F}' || c == '\U{205F}'
    || c == '\U{3000}' || c == '\U{FEFF}'
  }

  /** `s` without its leading whitespace. */
  function TrimStart(s: string): (r: string)
    ensures |r| <= |s| && r == s[|s| - |r|..]
    ensures forall i :: 0 <= i < |s| - |r| ==> IsJsWhitespace(s[i])
    ensures |r| > 0 ==> !IsJsWhitespace(r[0])
    decreases |s|
  {
    if |s| > 0 && IsJsWhitespace(s[0]) then TrimStart(s[1..]) else s
  }

  /** `s` without its trailing whitespace. */
  function TrimEnd(s: string): (r: string)
    ensures |r| <= |s| && r == s[..|r|]
    ensures forall i :: |r| <= i < |s| ==> IsJsWhitespace(s[i])
    ensures |r| > 0 ==> !IsJsWhitespace(r[|r| - 1])
    decreases |s|
  {
    if |s| > 0 && IsJsWhitespace(s[|s| - 1]) then TrimEnd(s[..|s| - 1]) else s
  }

  /** `s.trim()`: the result is empty exactly when `s` consists of whitespace
      only, and otherwise it neither starts nor ends with whitespace. */
  function Trim(s: string): (r: string)
    ensures r == "" <==> forall i :: 0 <= i < |s| ==> IsJsWhitespace(s[i])
    ensures r != "" ==> !IsJsWhitespace(r[0]) && !IsJsWhitespace(r[|r| - 1])
  {
    var t := TrimStart(s);
    var r := TrimEnd(t);
    assert (forall i :: 0 <= i < |s| ==> IsJsWhitespace(s[i])) ==> t == "" by {
      if |t| > 0 {
        assert t[0] == s[|s| - |t|];
      }
    }
    r
  }
}

=== FILE: migration.dfy ===
/** The one-off script that replaces plain-text passwords by password hashes. */
module Migration {
  import opened Wrappers
  import opened Seqs
  import opened PyValues
  import opened Users
  import Api

  /** How stored hashes begin when they come from the PBKDF2 method. */
  const HashPrefix := "pbkdf2:"

  /** `needs_hash(pw)`: anything but a string is hashed, and a string is
      hashed unless it already begins with `pbkdf2:`. */
  function NeedsHash(pw: Value): (r: bool)
    ensures !pw.Str? ==> r
    ensures pw.Str? ==> (r <==> !(|pw.s| >= |HashPrefix| && pw.s[..|HashPrefix|] == HashPrefix))
  {
    !(pw.Str? && HashPrefix <= pw.s)
  }

  /** The loop's test `u.password and needs_hash(u.password)`: a present,
      non-empty password that is not already a hash. */
  predicate Selected(u: User) {
    u.password.Some? && u.password.value != "" && NeedsHash(Str(u.password.value))
  }

  /** `generate_password_hash` as the script sees it. The library draws a
      fresh random salt on every call, so equal passwords need not hash
      alike; `hash(pw, i)` is the output of the one call made for the user at
      loop position `i`, and the model assumes nothing else about it. */
  type Hasher = (string, nat) -> string

  /** The user at loop position `i` after the loop body ran on them. */
  function Rehash(u: User, i: nat, hash: Hasher): User {
    if Selected(u) then u.(password := Some(hash(u.password.value, i))) else u
  }

  /** `main()` without its output: the rows after the loop, the value of
      `changed`, and whether the session was committed. Selected users get
      a hash of their old password and nothing else about them changes;
      every other user is left exactly as they were; `changed` counts the
      selected users; the commit happens exactly when `changed` is non-zero. */
  method Migrate(users: seq<User>, hash: Hasher) returns (after: seq<User>, changed: nat, committed: bool)
    ensures |after| == |users|
    ensures forall i :: 0 <= i < |users| && Selected(users[i]) ==>
      after[i] == users[i].(password := Some(hash(users[i].password.value, i)))
    ensures forall i :: 0 <= i < |users| && !Selected(users[i]) ==> after[i] == users[i]
    ensures changed == |Filter(users, Selected)|
    ensures committed <==> changed > 0
    ensures after == Migrated(users, hash)
  {
    after := [];
    changed := 0;
    for i := 0 to |users|
      invariant |after| == i
      invariant forall k :: 0 <= k < i ==> after[k] == Rehash(users[k], k, hash)
      invariant changed == Count(users[..i], Selected)
    {
      var u := users[i];
      assert users[..i + 1][..i] == users[..i];
      if Selected(u) {
        after := after + [u.(password := Some(hash(u.password.value, i)))];
        changed := changed + 1;
      } else {
        after := after + [u];
      }
    }
    assert users[..|users|] == users;
    CountIsFilterLength(users, Selected);
    forall i | 0 <= i < |users|
      ensures Selected(users[i]) ==> after[i] == users[i].(password := Some(hash(users[i].password.value, i)))
      ensures !Selected(users[i]) ==> after[i] == users[i]
    {
      assert after[i] == Rehash(users[i], i, hash);
    }
    committed := changed > 0;
  }

  /** The table after the loop, as a function of the table before it. */
  function Migrated(users: seq<User>, hash: Hasher): seq<User> {
    seq(|users|, i requires 0 <= i < |users| => Rehash(users[i], i, hash))
  }

  /** Skipping the commit loses nothing: when no user is selected, the loop
      has left every row as it was. */
  lemma NoCommitNeededWhenNothingSelected(users: seq<User>, hash: Hasher)
    requires |Filter(users, Selected)| == 0
    ensures Migrated(users, hash) == users
  {
    forall i | 0 <= i < |users|
      ensures !Selected(users[i])
    {
      assert users[i] in users;
    }
  }

  /** Two users with the same plain-text password can end up with different
      stored hashes, since every call draws its own salt. */
  lemma EqualPasswordsNeedNotHashAlike(pw: string)
    requires pw != "" && !(HashPrefix <= pw)
    ensures
      var hash: Hasher := (p: string, i: nat) => if i == 0 then "pbkdf2:a" else "pbkdf2:b";
      var users := [User(1, "a", "a@x", Some(pw), None, None), User(2, "b", "b@x", Some(pw), None, None)];
      Migrated(users, hash)[0].password != Migrated(users, hash)[1].password
  {
    var hash: Hasher := (p: string, i: nat) => if i == 0 then "pbkdf2:a" else "pbkdf2:b";
    var users := [User(1, "a", "a@x", Some(pw), None, None), User(2, "b", "b@x", Some(pw), None, None)];
    assert Selected(users[0]) && Selected(users[1]);
    assert Migrated(users, hash)[0].password == Some("pbkdf2:a");
    assert Migrated(users, hash)[1].password == Some("pbkdf2:b");
  }

  /** When every hash begins with `pbkdf2:`, a second run selects nobody,
      so it changes and commits nothing. */
  lemma SecondRunSelectsNobody(users: seq<User>, hash: Hasher)
    requires forall pw, i :: HashPrefix <= hash(pw, i)
    ensures forall i :: 0 <= i < |users| ==> !Selected(Migrated(users, hash)[i])
  {
  }

  /** When the first run's hash does not begin with `pbkdf2:`, a second run
      (with its own salts, `again`) hashes the stored hash once more. */
  lemma OtherHashFormatIsHashedAgain(u: User, i: nat, hash: Hasher, again: Hasher)
    requires Selected(u)
    requires hash(u.password.value, i) != "" && !(HashPrefix <= hash(u.password.value, i))
    ensures Selected(Rehash(u, i, hash))
    ensures Rehash(Rehash(u, i, hash), i, again).password == Some(again(hash(u.password.value, i), i))
  {
  }

  /** The login endpoint compares the submitted password with the stored
      one as plain text. Once a user's password has been rewritten, their
      old password is refused with 401, unless the hash happens to equal it. */
  lemma RehashedUserCannotLogInWithOldPassword(users: seq<User>, k: nat, hash: Hasher)
    requires UniqueEmails(users) && k < |users| && users[k].email != ""
    requires Selected(users[k]) && hash(users[k].password.value, k) != users[k].password.value
    ensures Api.Login(Api.Credentials(users[k].email, users[k].password.value), Migrated(users, hash)) == Api.InvalidCredentials
  {
    var migrated := Migrated(users, hash);
    assert UniqueEmails(migrated) by {
      forall i, j | 0 <= i < |migrated| && 0 <= j < |migrated| && migrated[i].email == migrated[j].email
        ensures i == j
      {
        assert migrated[i].email == users[i].email && migrated[j].email == users[j].email;
      }
    }
    FirstWithEmailIsTheOwner(migrated, k);
  }
}

=== FILE: py_values.dfy ===
/** The Python values a parsed JSON request body can hold, and Python's truthiness. */
module PyValues {

  /** `None`, `bool`, `int`, `str`, `list` and `dict` with string keys.
      JSON numbers with a fractional part are not represented. */
  datatype Value =
    | Null
    | Bool(b: bool)
    | Int(i: int)
    | Str(s: string)
    | List(items: seq<Value>)
    | Dict(entries: map<string, Value>)

  /** `bool(v)`: false for `None`, `False`, zero and empty containers. */
  predicate Truthy(v: Value) {
    match v
    case Null => false
    case Bool(b) => b
    case Int(i) => i != 0
    case Str(s) => s != ""
    case List(items) => items != []
    case Dict(entries) => entries != map[]
  }

  /** `entries.get(key)`: the value under `key`, or `None` when it is absent. */
  function Get(entries: map<string, Value>, key: string): Value {
    if key in entries then entries[key] else Null
  }
}

=== FILE: seqs.dfy ===
/** Sequence operations the dashboard performs on its row lists. */
module Seqs {

  /** The elements of `s` for which `p` holds, in their original order:
      `Array.prototype.filter` with a callback that looks only at the element. */
  function Filter<T>(s: seq<T>, p: T -> bool): (r: seq<T>)
    ensures |r| <= |s|
    ensures forall x :: x in r ==> x in s && p(x)
    ensures forall x :: x in s && p(x) ==> x in r
    ensures r == [] <==> forall i :: 0 <= i < |s| ==> !p(s[i])
    decreases |s|
  {
    if |s| == 0 then []
    else if p(s[0]) then [s[0]] + Filter(s[1..], p)
    else Filter(s[1..], p)
  }

  /** Filtering distributes over concatenation. Together with the one-element
      case this fixes the order of the kept elements: they appear as in `s`. */
  lemma {:induction false} FilterConcat<T>(a: seq<T>, b: seq<T>, p: T -> bool)
    ensures Filter(a + b, p) == Filter(a, p) + Filter(b, p)
    decreases |a|
  {
    if |a| == 0 {
      assert a + b == b;
    } else {
      assert (a + b)[1..] == a[1..] + b;
      FilterConcat(a[1..], b, p);
    }
  }

  /** An element contributes itself to the result exactly when it passes,
      at its own position between what is kept before and after it. */
  lemma FilterAround<T>(before: seq<T>, x: T, after: seq<T>, p: T -> bool)
    ensures Filter(before + [x] + after, p) ==
      Filter(before, p) + (if p(x) then [x] else []) + Filter(after, p)
  {
    FilterConcat(before + [x], after, p);
    FilterConcat(before, [x], p);
    assert Filter([x], p) == (if p(x) then [x] else []) by {
      assert [x][1..] == [];
    }
  }

  /** When only one element passes, the result is that element alone. */
  lemma FilterSingleSurvivor<T>(before: seq<T>, x: T, after: seq<T>, p: T -> bool)
    requires p(x)
    requires forall i :: 0 <= i < |before| ==> !p(before[i])
    requires forall i :: 0 <= i < |after| ==> !p(after[i])
    ensures Filter(before + [x] + after, p) == [x]
  {
    FilterAround(before, x, after, p);
    assert Filter(before, p) == [];
    assert Filter(after, p) == [];
  }

  /** How many elements of `s` satisfy `p`, counted from the front, one
      element at a time, the way a loop over `s` would count them. */
  function Count<T>(s: seq<T>, p: T -> bool): nat
    decreases |s|
  {
    if |s| == 0 then 0
    else Count(s[..|s| - 1], p) + (if p(s[|s| - 1]) then 1 else 0)
  }

  /** A running count ends at the number of elements the filter keeps. */
  lemma {:induction false} CountIsFilterLength<T>(s: seq<T>, p: T -> bool)
    ensures Count(s, p) == |Filter(s, p)|
    decreases |s|
  {
    if |s| > 0 {
      var n := |s| - 1;
      CountIsFilterLength(s[..n], p);
      FilterAround(s[..n], s[n], [], p);
      assert s == s[..n] + [s[n]] + [];
    }
  }

  /** Filtering returns its input unchanged exactly when every element passes. */
  lemma {:induction false} FilterKeepsAll<T>(s: seq<T>, p: T -> bool)
    ensures Filter(s, p) == s <==> forall i :: 0 <= i < |s| ==> p(s[i])
    decreases |s|
  {
    if |s| > 0 && forall i :: 0 <= i < |s| ==> p(s[i]) {
      forall i | 0 <= i < |s[1..]|
        ensures p(s[1..][i])
      {
        assert s[1..][i] == s[i + 1];
      }
      FilterKeepsAll(s[1..], p);
      assert s == [s[0]] + s[1..];
    }
  }

  /** The elements of `s` whose position, counted from `offset`, differs from
      `index`: `filter((_, i) => i !== index)` applied to a suffix of a list
      that starts at position `offset`. */
  function KeepOtherPositions<T>(s: seq<T>, index: int, offset: int): (r: seq<T>)
    ensures offset <= index < offset + |s| ==> r == s[..index - offset] + s[index - offset + 1..]
    ensures !(offset <= index < offset + |s|) ==> r == s
    decreases |s|
  {
    if |s| == 0 then []
    else if offset == index then KeepOtherPositions(s[1..], index, offset + 1)
    else if offset < index < offset + |s| then
      var rest := KeepOtherPositions(s[1..], index, offset + 1);
      assert rest == s[1..index - offset] + s[index - offset + 1..];
      assert [s[0]] + s[1..index - offset] == s[..index - offset];
      [s[0]] + rest
    else
      var rest := KeepOtherPositions(s[1..], index, offset + 1);
      assert [s[0]] + rest == s;
      [s[0]] + rest
  }

  /** `list.filter((_, i) => i !== index)`: drops the element at `index` and
      keeps the others in order; an index outside the list drops nothing. */
  function RemoveAt<T>(s: seq<T>, index: int): (r: seq<T>)
    ensures 0 <= index < |s| ==> |r| == |s| - 1
    ensures 0 <= index < |s| ==> forall j :: 0 <= j < index ==> r[j] == s[j]
    ensures 0 <= index < |s| ==> forall j :: index <= j < |r| ==> r[j] == s[j + 1]
    ensures !(0 <= index < |s|) ==> r == s
  {
    KeepOtherPositions(s, index, 0)
  }
}

=== FILE: submission.dfy ===
/** The save buttons of the dashboard: checking a draft, building the JSON
    body that is POSTed, and what the form looks like afterwards. */
module Submission {
  import opened Wrappers
  import opened Seqs
  import opened JsText
  import opened Drafts

  /** `parseInt` applied to a duration's text. The number it produces is not
      modelled; the payload records which text it was computed from. */
  datatype ParsedInt = ParseIntOf(text: string)

  /** `parseFloat` applied to a quantity; as for `ParsedInt`, only its argument is kept. */
  datatype ParsedFloat = ParseFloatOf(quantity: Quantity)

  datatype ExerciseEntry = ExerciseEntry(exerciseName: string, durationMin: ParsedInt)
  datatype FoodEntry = FoodEntry(foodName: string, quantity: ParsedFloat)

  /** The body POSTed to `/api/user/<id>/workouts`. */
  datatype WorkoutPayload = WorkoutPayload(workoutType: string, workoutDate: string, exercises: seq<ExerciseEntry>)

  /** The body POSTed to `/api/user/<id>/meals`. */
  datatype MealPayload = MealPayload(mealType: string, mealDate: string, foods: seq<FoodEntry>)

  /** Either the body to send, or the text of the blocking alert shown instead. */
  datatype Checked<P> = Ready(payload: P) | Refused(alert: string)

  const NoExercisesAlert := "Please add at least one exercise."
  const NoMealTypeAlert := "Select meal type"

  /** An exercise row is sent when its trimmed name and its duration text are both non-empty. */
  predicate IsSavableExercise(row: ExerciseRow) {
    Trim(row.exerciseName) != "" && row.durationMin != ""
  }

  /** A food row is sent when its trimmed name is non-empty; its quantity is not looked at. */
  predicate IsSavableFood(row: FoodRow) {
    Trim(row.foodName) != ""
  }

  function ExerciseEntries(rows: seq<ExerciseRow>): seq<ExerciseEntry> {
    seq(|rows|, k requires 0 <= k < |rows| => ExerciseEntry(rows[k].exerciseName, ParseIntOf(rows[k].durationMin)))
  }

  function FoodEntries(rows: seq<FoodRow>): seq<FoodEntry> {
    seq(|rows|, k requires 0 <= k < |rows| => FoodEntry(rows[k].foodName, ParseFloatOf(rows[k].quantity)))
  }

  /** The check and payload construction of `handleAddWorkout`. The save is
      refused exactly when no row is savable; otherwise type and date are
      copied and the exercises are the savable rows, in order, one entry each. */
  function WorkoutPayloadOf(d: WorkoutDraft): (r: Checked<WorkoutPayload>)
    ensures r.Refused? <==> forall i :: 0 <= i < |d.exercises| ==> !IsSavableExercise(d.exercises[i])
    ensures r.Refused? ==> r.alert == NoExercisesAlert
    ensures r.Ready? ==> r.payload.workoutType == d.workoutType && r.payload.workoutDate == d.workoutDate
    ensures r.Ready? ==>
      var kept := Filter(d.exercises, IsSavableExercise);
      && |r.payload.exercises| == |kept|
      && forall k :: 0 <= k < |kept| ==>
           r.payload.exercises[k] == ExerciseEntry(kept[k].exerciseName, ParseIntOf(kept[k].durationMin))
  {
    var kept := Filter(d.exercises, IsSavableExercise);
    if |kept| == 0 then Refused(NoExercisesAlert)
    else Ready(WorkoutPayload(d.workoutType, d.workoutDate, ExerciseEntries(kept)))
  }

  /** The check and payload construction of `handleAddMeal`. Only an empty
      meal type refuses the save; the foods are the savable rows, in order,
      and may be none at all. */
  function MealPayloadOf(d: MealDraft): (r: Checked<MealPayload>)
    ensures r.Refused? <==> d.mealType == ""
    ensures r.Refused? ==> r.alert == NoMealTypeAlert
    ensures r.Ready? ==> r.payload.mealType == d.mealType && r.payload.mealDate == d.mealDate
    ensures r.Ready? ==>
      var kept := Filter(d.foods, IsSavableFood);
      && |r.payload.foods| == |kept|
      && forall k :: 0 <= k < |kept| ==>
           r.payload.foods[k] == FoodEntry(kept[k].foodName, ParseFloatOf(kept[k].quantity))
  {
    if d.mealType == "" then Refused(NoMealTypeAlert)
    else Ready(MealPayload(d.mealType, d.mealDate, FoodEntries(Filter(d.foods, IsSavableFood))))
  }

  /** A meal whose type is set is sent even when every food row is blank:
      there is no check that at least one food survives the filter. */
  lemma MealWithBlankFoodsIsSent(d: MealDraft)
    requires d.mealType != ""
    requires forall i :: 0 <= i < |d.foods| ==> Trim(d.foods[i].foodName) == ""
    ensures MealPayloadOf(d) == Ready(MealPayload(d.mealType, d.mealDate, []))
  {
    assert Filter(d.foods, IsSavableFood) == [];
  }

  /** A workout whose every row is savable sends every row, in order: the
      filter drops nothing. */
  lemma AllSavableExercisesAreSent(d: WorkoutDraft)
    requires |d.exercises| > 0
    requires forall i :: 0 <= i < |d.exercises| ==> IsSavableExercise(d.exercises[i])
    ensures WorkoutPayloadOf(d) == Ready(WorkoutPayload(d.workoutType, d.workoutDate, ExerciseEntries(d.exercises)))
  {
    FilterKeepsAll(d.exercises, IsSavableExercise);
  }

  /** A meal with a type whose every food row is named sends every row, in order. */
  lemma NamedFoodsAreAllSent(d: MealDraft)
    requires d.mealType != ""
    requires forall i :: 0 <= i < |d.foods| ==> IsSavableFood(d.foods[i])
    ensures MealPayloadOf(d) == Ready(MealPayload(d.mealType, d.mealDate, FoodEntries(d.foods)))
  {
    FilterKeepsAll(d.foods, IsSavableFood);
  }

  /** The opaque summary body the dashboard fetches from `/api/user/<id>/summary`. */
  datatype Summary = SummaryBody(json: string)

  /** What happens to a POST once it is sent. The server answers with a
      non-OK status, which always raises the form's own fixed alert; or the
      fetch itself is rejected (the server is unreachable), and the alert
      shows the browser's `message`; or the POST is accepted and the
      follow-up summary fetch then fails or yields a summary. The refresh
      never looks at its response's status: `RefreshFailed` is only a
      rejected fetch or a body that is not JSON, and a non-OK answer with a
      JSON body counts as `Refreshed`. */
  datatype Reply =
    | PostRejected
    | PostUnreachable(message: string)
    | RefreshFailed(message: string)
    | Refreshed(summary: Summary)

  const WorkoutRejectedAlert := "Failed to add workout"
  const MealRejectedAlert := "Failed to add meal"

  /** Whether a form is shown, and its draft. */
  datatype Form<D> = Form(shown: bool, draft: D)

  /** The state after pressing a save button, the request sent if any, and the alert shown if any. */
  datatype Saved<D, P> = Saved(form: Form<D>, summary: Option<Summary>, request: Option<P>, alert: Option<string>)

  /** `handleAddWorkout`. A request is sent exactly when the draft passes the
      check, and it carries the checked payload. Only a sent request followed
      by a refreshed summary closes and resets the form; on every other path
      the form and summary are left as they were and an alert is shown. */
  function SaveWorkout(f: Form<WorkoutDraft>, summary: Option<Summary>, reply: Reply, today: string): (s: Saved<WorkoutDraft, WorkoutPayload>)
    ensures s.request.None? <==> WorkoutPayloadOf(f.draft).Refused?
    ensures s.request.Some? ==> WorkoutPayloadOf(f.draft) == Ready(s.request.value)
    ensures s.request.None? ==> s.alert == Some(NoExercisesAlert)
    ensures s.request.Some? && reply.Refreshed? ==>
      && !s.form.shown
      && s.form.draft.workoutType == ""
      && s.form.draft.workoutDate == today
      && s.form.draft.exercises == [BlankExercise]
      && s.summary == Some(reply.summary)
      && s.alert.None?
    ensures s.request.Some? && reply.PostRejected? ==> s.alert == Some(WorkoutRejectedAlert)
    ensures s.request.Some? && (reply.PostUnreachable? || reply.RefreshFailed?) ==> s.alert == Some(reply.message)
    ensures !(s.request.Some? && reply.Refreshed?) ==> s.form == f && s.summary == summary
  {
    match WorkoutPayloadOf(f.draft)
    case Refused(alert) => Saved(f, summary, None, Some(alert))
    case Ready(payload) =>
      match reply
      case Refreshed(next) => Saved(Form(false, NewWorkoutDraft(today)), Some(next), Some(payload), None)
      case PostRejected => Saved(f, summary, Some(payload), Some(WorkoutRejectedAlert))
      case PostUnreachable(message) => Saved(f, summary, Some(payload), Some(message))
      case RefreshFailed(message) => Saved(f, summary, Some(payload), Some(message))
  }

  /** `handleAddMeal`, with the same shape as `SaveWorkout`: the check here is
      only that a meal type is set. */
  function SaveMeal(f: Form<MealDraft>, summary: Option<Summary>, reply: Reply, today: string): (s: Saved<MealDraft, MealPayload>)
    ensures s.request.None? <==> f.draft.mealType == ""
    ensures s.request.Some? ==> MealPayloadOf(f.draft) == Ready(s.request.value)
    ensures s.request.None? ==> s.alert == Some(NoMealTypeAlert)
    ensures s.request.Some? && reply.Refreshed? ==>
      && !s.form.shown
      && s.form.draft.mealType == ""
      && s.form.draft.mealDate == today
      && s.form.draft.foods == [BlankFood]
      && s.summary == Some(reply.summary)
      && s.alert.None?
    ensures s.request.Some? && reply.PostRejected? ==> s.alert == Some(MealRejectedAlert)
    ensures s.request.Some? && (reply.PostUnreachable? || reply.RefreshFailed?) ==> s.alert == Some(reply.message)
    ensures !(s.request.Some? && reply.Refreshed?) ==> s.form == f && s.summary == summary
  {
    match MealPayloadOf(f.draft)
    case Refused(alert) => Saved(f, summary, None, Some(alert))
    case Ready(payload) =>
      match reply
      case Refreshed(next) => Saved(Form(false, NewMealDraft(today)), Some(next), Some(payload), None)
      case PostRejected => Saved(f, summary, Some(payload), Some(MealRejectedAlert))
      case PostUnreachable(message) => Saved(f, summary, Some(payload), Some(message))
      case RefreshFailed(message) => Saved(f, summary, Some(payload), Some(message))
  }

  /** A draft with exactly one savable row sends that row alone, whatever
      unsavable rows surround it. */
  lemma OnlySavableExerciseIsSent(d: WorkoutDraft, before: seq<ExerciseRow>, row: ExerciseRow, after: seq<ExerciseRow>)
    requires d.exercises == before + [row] + after
    requires IsSavableExercise(row)
    requires forall i :: 0 <= i < |before| ==> !IsSavableExercise(before[i])
    requires forall i :: 0 <= i < |after| ==> !IsSavableExercise(after[i])
    ensures WorkoutPayloadOf(d) ==
      Ready(WorkoutPayload(d.workoutType, d.workoutDate, [ExerciseEntry(row.exerciseName, ParseIntOf(row.durationMin))]))
  {
    FilterSingleSurvivor(before, row, after, IsSavableExercise);
    assert ExerciseEntries([row]) == [ExerciseEntry(row.exerciseName, ParseIntOf(row.durationMin))];
  }
}

=== FILE: users.dfy ===
/** The `user` table as the backend reads it. */
module Users {
  import opened Wrappers

  /** A row of the `user` table, reduced to the columns the core reads.
      `password` is `None` for a NULL column: the column is declared
      non-null, but the re-hash script guards against a missing value. */
  datatype User = User(
    userId: int,
    username: string,
    email: string,
    password: Option<string>,
    age: Option<int>,
    gender: Option<string>)

  /** `User.query.filter_by(email=email).first()`: the position of the first
      row, in table order, whose email equals `email`. */
  function FirstWithEmail(users: seq<User>, email: string): (r: Option<nat>)
    ensures r.Some? ==> r.value < |users| && users[r.value].email == email
    ensures r.Some? ==> forall j :: 0 <= j < r.value ==> users[j].email != email
    ensures r.None? <==> forall j :: 0 <= j < |users| ==> users[j].email != email
    decreases |users|
  {
    if |users| == 0 then None
    else if users[0].email == email then Some(0)
    else match FirstWithEmail(users[1..], email)
      case None => None
      case Some(k) => Some(k + 1)
  }

  /** Emails are unique, as the column's unique constraint demands. */
  predicate UniqueEmails(users: seq<User>) {
    forall i, j :: 0 <= i < |users| && 0 <= j < |users| && users[i].email == users[j].email ==> i == j
  }

  /** With unique emails, the lookup finds the one row carrying the email. */
  lemma FirstWithEmailIsTheOwner(users: seq<User>, k: nat)
    requires UniqueEmails(users) && k < |users|
    ensures FirstWithEmail(users, users[k].email) == Some(k)
  {
    var r := FirstWithEmail(users, users[k].email);
    assert r.Some?;
    assert !(r.value < k);
  }
}

=== FILE: wrappers.dfy ===
/** Optional values shared by the dashboard and backend modules. */
module Wrappers {

  /** A value that may be missing: JavaScript's `null` or Python's `None`. */
  datatype Option<+T> = None | Some(value: T)
}
